=== FILE: README.md ===
# Portable descriptor streams: a Dafny model

This project models the resource-and-buffering core of the Synthesys stream
library and the option lookup it reads its defaults from:

- **Flag translation** (`FileFlags`, file.cpp): the portable open mode and
  permission bit sets and their three projections onto platform flags:
  `access(mode)`, `convert(mode)` and `convert(permit)`. Bit sets are Dafny
  `set`s of enum bits. Platform constants are distinct abstract values, so a
  set of them stands for the OR of the flags. On real platforms some flags
  are 0: `F_OK` is 0 everywhere, and `O_RDONLY` is 0 on POSIX. In the
  integer the source returns, such a flag cannot be told from its absence,
  so `access({extant})` and `access({})` are both 0. `O_TEXT`/`O_BINARY` do
  not exist on POSIX. The model keeps every flag apart so that every branch
  of the source is visible in the result. The contracts of `FileFlags`
  (for example "F_OK iff extant") are statements about these abstract flags,
  not about the platform integers.
- **Descriptor state machine** (`File`, file.cpp): a `Descriptor` holds
  either `Invalid` or an owned handle. `open`, `read`, `write` and `close`
  each issue one system call. The model records that call as a `Call` value
  and receives the OS answer as an abstract `Reply` (`Failed` or
  `Done(value)`). A `sys::err` report becomes a `Report` value. The module
  also covers the `pipe` constructor and `process::run`.
- **Stream adapters** (`Membuf`, `Fds`, `Fs`, `Ipc`; fds.hpp, include/fs.hpp,
  ipc.hpp):
  - the fill/flush hooks issue one read or write of `n * sizeof(Char)` bytes,
    computed in 64-bit `size_t`, and return the OS count as a signed
    `std::streamsize`, -1 on failure;
  - buffer capacities are sized from the direction bits of the caller's mode;
  - the mode is OR'd with the stream kind's default;
  - process streams write to `file[0]` and read from `file[1]`;
  - `execute` builds a null-terminated argv.
- **Option lookup** (`Opt`, src/opt.cpp): lookup takes arguments first,
  then the environment, then the registry. Registry values beginning with
  `@` are aliases; resolution stops when an alias value repeats. The module
  also covers boolean flags read by false-word prefix, default-if-empty casts,
  and boolean `put`.

The direction bits are named `read`/`write` in file.cpp, `in`/`out` in
fds.hpp and `rd`/`wr` in include/fs.hpp. They are the same two bits here, and
`rw` is their union. The header that defines them (file.hpp) is not part of
this model.

## Model

| member | source | states |
|---|---|---|
| FileFlags.Access | file.cpp:10-32 | over the abstract flags: F_OK iff extant, X_OK iff run, R_OK iff read, W_OK iff write; no other flag exists (as platform integers F_OK is 0, so extant leaves no trace) |
| FileFlags.AccessUnion | file.cpp:10-32 | the access flags of a union of modes are the union of their access flags |
| FileFlags.AccessDeterminedByProbeBits | file.cpp:10-32 | over the abstract flags, two modes give the same access flags iff they agree on extant, run, read and write (as platform integers, where F_OK is 0, only run, read and write are seen) |
| FileFlags.Convert | file.cpp:34-84 | read+write gives O_RDWR; write alone gives O_WRONLY; read alone gives O_RDONLY. Text gives O_TEXT; binary gives O_BINARY only without text. O_APPEND, O_TRUNC and O_EXCL are set iff append, erase and only are. O_CREAT is set iff extant is absent |
| FileFlags.ConvertOneDirection | file.cpp:38-51 | at most one access-direction flag is set, and none iff the mode has neither read nor write |
| FileFlags.ConvertDeterminedBy | file.cpp:34-84 | two modes convert alike iff they agree on the direction bits, the effective translation and the append/erase/only/extant bits; the run bit is ignored |
| FileFlags.TextWinsOverBinary | file.cpp:53-61 | with both text and binary, the result is that of text alone: O_TEXT without O_BINARY |
| FileFlags.ConvertPermit | file.cpp:86-128 | each of the nine permission flags is present iff its own permission bit is |
| FileFlags.PermitRoundTrip | file.cpp:86-128 | the permission mask can be read back from its platform value, so no two masks collide |
| FileFlags.ConvertPermitUnion | file.cpp:86-128 | the permission value of a union of masks is the OR of their values |
| File.Descriptor.IsOpen | fds.hpp:45-48 | a descriptor tests true exactly when its handle is not the invalid one |
| File.Open | file.cpp:132-139 | issues one open with convert(mask) and permission 0; the descriptor is open iff the OS succeeds and then holds the returned handle; a failure is reported with path and mask |
| File.OpenForgetsPrevious | file.cpp:132-139 | the result of open does not depend on a previously held handle, which is overwritten and not closed |
| File.Write | file.cpp:141-149 | one write call of the given size; the OS count is returned unchanged; an error is reported iff the call fails |
| File.Read | file.cpp:151-159 | one read call of the given size; the OS count is returned unchanged; an error is reported iff the call fails |
| File.ShortTransferIsNotAnError | file.cpp:141-159 | a short write and a zero-byte read come back unchanged with no report |
| File.Close | file.cpp:161-168 | a successful close resets the handle to invalid; a failed close reports and keeps the handle |
| File.Lifecycle | file.cpp:132-168 | is_open is false when default-constructed, true after a successful open, false after a successful close |
| File.CloseRetry | file.cpp:161-168 | after a failed close, a retry closes the same handle and leaves the descriptor unowned |
| File.MakePipe | file.cpp:170-178 | one pipe call; both ends are set, to the returned handles, or neither is, and a report is made iff the call fails |
| File.MakePipeIsWhole | file.cpp:170-178 | whatever the OS answers, a new pipe owns both ends or neither; a failed one is two unowned ends |
| File.PipeEndsCloseIndependently | file.cpp:161-178 | closing one end of a new pipe closes exactly the handle returned for that end; a failed close keeps it |
| File.Run | file.cpp:180-188 | one run call with argv; the pid is valid iff the OS succeeds; the three descriptors are stored only then and are kept as they were otherwise |
| File.FailedSpawnLeavesUnowned | file.cpp:180-188 | a failed spawn on a fresh process leaves its pid and all three descriptors unowned |
| File.RunConsistent | file.cpp:180-188 | after run, an invalid pid goes with no owned end exactly when the spawn succeeded or the process owned no end before |
| File.FailedRespawnKeepsEnds | file.cpp:180-188 | a live process whose respawn fails has an invalid pid but still owns its three old ends |
| Membuf.DefaultMode | fds.hpp:141-178 | the default mode has the read bit unless the kind is output-only and the write bit unless it is input-only, and nothing else (fdstream in\|out, ifdstream in, ofdstream out; the same rw/rd/wr defaults are at include/fs.hpp:101-132) |
| Membuf.Bytes | fds.hpp:56 | the size_t byte count `sizeof(Char) * n` equals the product when it fits in 64 bits, and equals n for one-byte characters |
| Membuf.AsStreamSize | fds.hpp:54-62 | the hook result is the OS count when the call succeeds and -1 when it fails, so it is negative exactly on failure |
| Fds.FdBuf.IsOpen | fds.hpp:45-48 | is_open makes no system call and is true exactly when the buffer's handle is valid |
| Fds.PutN | fds.hpp:54-57 | xsputn issues one write of sizeof(Char)*n bytes on the buffer's descriptor and returns the OS count, or -1, without retry |
| Fds.GetN | fds.hpp:59-62 | xsgetn issues one read of sizeof(Char)*n bytes on the buffer's descriptor and returns the OS count, or -1, without retry |
| Fds.HooksPassCountThrough | fds.hpp:54-62 | a successful short count reaches the buffer unchanged and unreported; a failure reaches it as -1 |
| Fds.Sizing | fds.hpp:110-121 | with a direction in the mode, each buffer gets size if its bit is present and 0 otherwise; with none, the capacities are unchanged |
| Fds.Make | fds.hpp:96-100 | the default constructor keeps size sz and the given handle, leaves the capacities alone, and is open iff the handle is valid |
| Fds.Open | fds.hpp:108-125 | open sizes the buffers from the caller's mode and opens the descriptor with convert(mode \| default_mode); the buffer then holds the handle the OS returned, or is not open and the failure is reported |
| Fds.MakeAt | fds.hpp:102-106 | the path constructor keeps the global bufsiz, sizes from the caller's mode, opens with convert(mode \| default_mode), is open iff the OS succeeds, then holding the returned handle, and reports iff it fails |
| Fds.MakeAtIsOpenOfAny | fds.hpp:102-108 | the path constructor equals open on any stream of the same kind, size and capacities, whatever descriptor it held |
| Fds.OpenKeepsKindDirection | fds.hpp:124 | an output stream is always opened writable, an input stream readable, a bidirectional stream O_RDWR, whatever the caller's mode |
| Fds.SizingIgnoresDefault | fds.hpp:110-124 | sizing reads the caller's mode only: an input stream opened with no direction keeps its capacities yet opens read-only |
| Fs.SizingAsWritten | include/fs.hpp:41-54 | the literal test `mask & rw` gives both buffers size for any mask that names a direction, and leaves the capacities alone otherwise |
| Fs.SingleDirectionGetsBothBuffers | include/fs.hpp:41-54 | as written, rd and wr each get two buffers; the intended sizing gives (size, 0) and (0, size) |
| Fs.SizingAsWrittenAgreement | include/fs.hpp:41-54 | the literal and intended sizings agree exactly on masks naming both directions or none |
| Fs.Make | include/fs.hpp:38-55 | the default constructor as written owns no descriptor; any direction in the mask gives both buffers size, and no direction leaves the capacities alone |
| Fs.MakeAt | include/fs.hpp:57-74 | the path constructor as written keeps its kind, opens with convert(mask \| Default), sizes as the default constructor does, is open iff the OS succeeds, then holding the returned handle, and reports iff it fails |
| Fs.MakeIntended | include/fs.hpp:38-55 | the default constructor with the intended sizing: each buffer gets size exactly when its own direction bit is in the mask |
| Fs.MakeAtIntended | include/fs.hpp:57-74 | the path constructor with the intended per-bit sizing; it keeps its kind, opens with convert(mask \| Default), is open iff the OS succeeds, then holding the returned handle, and reports iff it fails |
| Fs.MakeAsWrittenAgreement | include/fs.hpp:38-74 | the constructors as written and as intended issue the same call and own the same descriptor, and build the same stream iff the mask names both directions or none |
| Fs.Open | include/fs.hpp:76-79 | open passes mask \| Default, returns whether the descriptor opened, holds the returned handle on success, reports iff it fails, and leaves the capacities alone |
| Fs.Close | include/fs.hpp:81-84 | close is the descriptor's close: unowned on success; unchanged and reported on failure |
| Fs.OpenMatchesMakeAt | include/fs.hpp:38-79 | constructing with a mask and then opening with that mask gives the same call and stream as the path constructor |
| Ipc.Argv | ipc.hpp:37-42 | the argv has length \|args\|+1, holds args in order, and ends with one null |
| Ipc.ArgvRoundTrip | ipc.hpp:37-42 | a callee reading up to the first null sees exactly args |
| Ipc.Execute | ipc.hpp:37-42 | one spawn of the terminated argv; true iff the pid is valid; on success the pid and the three ends are the spawned ones, on failure the descriptors are kept |
| Ipc.PutN | ipc.hpp:58-62 | xsputn writes sizeof(Char)*n bytes to file[0] only and returns the OS count, or -1 |
| Ipc.GetN | ipc.hpp:64-68 | xsgetn reads sizeof(Char)*n bytes from file[1] only and returns the OS count, or -1 |
| Ipc.HooksIgnoreOtherEnds | ipc.hpp:58-68 | neither hook depends on the stderr end, and each ignores the other direction's end |
| Ipc.Make | ipc.hpp:99-104 | the default constructor owns no process and sets both buffers to sz whatever the kind |
| Ipc.MakeOwnsNothing | ipc.hpp:58-68 | a default-constructed process stream is consistent, owns no end, and its hooks address the invalid handle |
| Ipc.MakeRun | ipc.hpp:106-110 | the argument constructor is default construction then one execute: on success file[0] and file[1] are the child's stdin and stdout ends, on failure nothing is owned |
| Ipc.MakeRunWiresHooks | ipc.hpp:58-68 | a process stream built with arguments is consistent whether or not the spawn succeeds; after success xsputn writes the child's stdin end and xsgetn reads its stdout end |
| Opt.Resolve | src/opt.cpp:243-262 | alias resolution never returns an alias, and returns either nil or a registry value |
| Opt.FewerUnseen | src/opt.cpp:254-259 | each alias followed is a new registry alias, so fewer remain unseen and resolution terminates |
| Opt.GetPair | src/opt.cpp:243-262 | the source's loop with its visited set computes the recursive resolution and terminates |
| Opt.ResolveWalk | src/opt.cpp:247-260 | following distinct unseen aliases leaves the result unchanged and adds their values to the visited set |
| Opt.ResolveChainEnds | src/opt.cpp:247-253 | a chain of distinct aliases ending at a non-alias resolves to that first non-alias value |
| Opt.ResolveChainCycles | src/opt.cpp:254-261 | a chain that revisits an alias value resolves to nil |
| Opt.SelfAliasIsNil | src/opt.cpp:254-261 | a key aliased to itself reads as nil |
| Opt.FirstArg | src/opt.cpp:200-208 | none iff no argument has the key; otherwise the value of the first argument with that key |
| Opt.GetName | src/opt.cpp:198-217 | with a matching argument, the value of the first one; otherwise a non-empty environment value; otherwise the resolved registry entry in the application section |
| Opt.ArgumentsWin | src/opt.cpp:198-208 | the first matching argument is returned, whatever the environment and the registry hold |
| Opt.EnvironmentBeforeRegistry | src/opt.cpp:210-216 | without a matching argument a non-empty environment value is returned and the registry does not matter |
| Opt.RegistryLast | src/opt.cpp:210-216 | without a matching argument and with an empty environment value, the registry entry in the application section is resolved |
| Opt.Cast | src/opt.cpp:22-26 | the default when the lookup is empty, otherwise the conversion of the looked-up text |
| Opt.ParseFlag | src/opt.cpp:30-42 | a flag reads false iff its lower-cased text starts with 0, no, off, false or disable |
| Opt.GetBool | src/opt.cpp:28-45 | the default when the lookup is empty; otherwise false iff the lower-cased value starts with a false word |
| Opt.GetBoolIsCast | src/opt.cpp:22-45 | the boolean lookup is the generic cast with the flag reading |
| Opt.ParseFlagIgnoresCase | src/opt.cpp:34 | two texts equal up to letter case read the same |
| Opt.ParseFlagSamples | src/opt.cpp:30-42 | OFF, Disabled, none and 0x1 read false; enable, 1 and yes read true |
| Opt.GetList | src/opt.cpp:382-390 | a copy of the default when the resolved value is empty, otherwise its split |
| Opt.GetListIsCast | src/opt.cpp:382-390 | the list lookup is the generic cast with the splitter |
| Opt.PutBool | src/opt.cpp:306-316 | true stores "enable" and false removes the key; no other entry changes |
| Opt.PutBoolRoundTrip | src/opt.cpp:306-316 | reading a stored flag back gives true after put(true) and the caller's default after put(false) |
| Opt.PutBoolName | src/opt.cpp:318-322 | put(view, bool) stores under the key in the application section and changes nothing else |
| Opt.PutBoolNameRoundTrip | src/opt.cpp:318-322 | a flag stored under a bare key reads back only when no argument or environment value overrides it |

## Findings

| source | as written | input that shows it | evidently intended | confidence | as-written member | corrected member |
|---|---|---|---|---|---|---|
| include/fs.hpp:41-54 | `if (mask & rw)` is true whenever either direction bit is set, so the `wr` and `rd` branches never run | an `ifdstream` built with its default mask `rd` and size 4096 gets capacities (4096, 4096) instead of (4096, 0) | `(mask & rw) == rw` as the first test, as fds.hpp:110 writes it | medium: not executed, and the definition of `rw` as `rd \| wr` is not part of this model | Fs.SizingAsWritten, Fs.Make, Fs.MakeAt, Fs.SingleDirectionGetsBothBuffers | Fds.Sizing, Fs.MakeIntended, Fs.MakeAtIntended |

`Fs.Make` and `Fs.MakeAt` are the constructors as written.
`Fs.MakeIntended` and `Fs.MakeAtIntended` are the same constructors with the
corrected sizing `Fds.Sizing`, and `Fs.MakeAsWrittenAgreement` states where
the two agree.

## Left out

- The system calls themselves (`sys::open/read/write/close/pipe/run`) are left out. Only their success or failure is modelled, as a `Reply` parameter. `fail(x)` is taken to be "the OS reported failure". Neither `fail` nor `invalid` is defined in the files this model covers. The value a failed `sys::open` or `sys::run` returns is taken to be `invalid`, so the descriptor or pid tests false after a failed call. The source stores that raw result (`fd = sys::open(...)`, `pid = sys::run(...)`). `File.Open`, `File.Run` and the lemmas about them (`File.Lifecycle`, `File.RunConsistent`, `File.FailedSpawnLeavesUnowned`) rely on this.
- `process::quit`, `process::kill` and `process::wait` (file.cpp:190-203) are left out. They only forward to OS signals and a blocking wait, and have no logic of their own.
- `sys::err` is modelled as a `Report` value. Whether it logs or throws is not part of this model; every state change the source makes happens before the report.
- `process::run` reports nothing when the spawn fails, and the model follows the code. The cleanup of half-created pipes belongs to `sys::run`, which is not part of this model.
- `set` on descriptors, pipes and processes is defined in file.hpp, which this model does not cover. The model assumes `set` stores the given handles and overwrites any handle held before, without closing it. `File.MakePipe`, `File.Run` and `Fds.Make` rely on this. If `set` closed the old handles first, then:
  - a successful `File.Run` over a live process would also issue three close calls for its old ends;
  - `File.MakePipe` and `Fds.Make`, which start from fresh objects, would not change.
- The forwarding `set` members of the streams (fds.hpp:35-38, include/fs.hpp:86-89, ipc.hpp:32-35) are not modelled separately. `File.MakePipe` assumes `fd[0]` is the read end and `fd[1]` the write end.
- `basic_fdbuf::close`, and `basic_procbuf::terminate` and `close(n)`, are left out. They forward to descriptor or process members defined in file.hpp, which this model does not cover.
- ipc.hpp calls `process::execute`, which file.cpp does not define. It is modelled as `process::run`, with its result taken to be "the pid is valid". `to_size` is taken as the identity.
- include/fs.hpp uses a descriptor constructor taking a path, and a bool-returning `open`; neither is in file.cpp. Both are modelled as `File.Open`, with the bool taken to be "the descriptor is open".
- `basic_membuf` is modelled by its two capacities only. The initial capacities are a parameter. The one-argument `setbufsiz(sz)` is taken to set both capacities to sz.
- Membuf.AsStreamSize: `basic_membuf::size_type` is defined in buf.hpp, which this model does not cover. The hooks are declared `override`, and the standard `xsputn`/`xsgetn` they would override return the signed `std::streamsize`. So `size_type` is taken to be signed, and the `ssize_t` count, -1 included, passes through unchanged. If `size_type` were a 64-bit unsigned type instead, a failure would reach the buffer as 2^64-1. Successful counts are assumed to fit in `ssize_t`.
- Membuf.Bytes: assumes `size_t` is 64-bit unsigned, so the product wraps modulo 2^64.
- Ipc.Argv: takes its arguments as strings, so a `nullptr` inside the `initializer_list<char const*>` cannot be expressed. `Ipc.ArgvRoundTrip` holds only for arguments that are all non-null; a null argument would end the child's argv early.
- Opt.GetPair: the `sys::warn(here, "Cycle", value)` diagnostic on a cycle is left out, because it is logging only; the result is still nil.
- Opt.PutBool: assumes `doc::ini::set` stores its value whether or not the key exists, and `cut` removes it. The source also calls a separate `put` on the registry, so `set` and `put` differ in a way `doc::ini`, which is not part of this model, defines.
- Opt.Resolve: returns an empty registry value unchanged. The source calls `front()` on it, which is undefined for an empty view.
- `fmt::to_pair` is not modelled as a function: the arguments are given already split into key/value pairs.
- `fmt::to_lower` is modelled as ASCII lowering.
- Fds.Open: `fmt::to_string(path)` (fds.hpp:123) is taken as the identity. Paths are narrow strings, so converting a wide path for the `wchar_t` streams is not modelled.
- `doc::ini::split` is modelled as a function parameter.
- `make_pair(key)` is modelled as pairing the key with the application section, which is a field of the option context.
- The registry's `set` and `cut` return values are left out. They come from `doc::ini`, which is not part of this model.
- `env::opt::put(argc, argv, cmd)` (src/opt.cpp:89-196) is left out. As written it is malformed: the `for` header at line 107 is broken, and `ptr` at lines 164 and 176 is undeclared. Its intended behaviour cannot be stated.
- `registry()` loading and its reader/writer locking (src/opt.cpp:47-69, 284-294) are left out, because they are file I/O and concurrency.
- The numeric getters and putters (src/opt.cpp:324-374) are left out. They rely on the foreign parsers `fmt::to_llong` and `fmt::to_quad`. They also call a three-argument `convert` that the file does not define; the template with that shape is `cast`.
- `got`, `set`, `put(pair, view)` and `cut` (src/opt.cpp:219-282), and the span forms of `get(view)` and `put` (src/opt.cpp:376-380, 392-402), are left out. They are thin forwards to `doc::ini` or to `make_pair`.
- include/sym.hpp is left out: it is a thin wrapper over dynamic-loader calls.
- The `std::basic_iostream` base classes are left out.

=== FILE: fds.dfy ===
/**
 The file-descriptor stream buffer and stream of fds.hpp: `basic_fdbuf`'s
 fill/flush hooks over one descriptor, and `impl::basic_fdstream::open`,
 which sizes the buffers from the caller's mode and opens the descriptor
 with that mode OR'd with the stream kind's default.
 */
module Fds {
  import opened Os
  import opened FileFlags
  import opened Membuf
  import File

  /** `basic_fdbuf`: one descriptor and the two buffer capacities. */
  datatype FdBuf = FdBuf(file: File.Descriptor, caps: Caps)
  {
    /** `is_open`: no system call, just whether the handle is valid. */
    predicate IsOpen(): (b: bool)
      ensures b <==> file.fd != Invalid
    {
      file.IsOpen()
    }
  }

  /** `xsputn`: one write of `n` characters of `width` bytes each; the OS count
      is returned without retry, as a signed `std::streamsize`. */
  function PutN(b: FdBuf, width: nat, n: nat, reply: Reply<nat>): (r: Hook)
    requires 1 <= width && IsSize(n)
    ensures r.call == WriteCall(b.file.fd, Bytes(width, n))
    ensures width * n < SizeModulus ==> r.call.size == width * n
    ensures r.result == AsStreamSize(reply)
    ensures r.report.Some? <==> reply.Failed?
  {
    var t := File.Write(b.file, Bytes(width, n), reply);
    Hook(AsStreamSize(t.count), t.call, t.report)
  }

  /** `xsgetn`: one read of `n` characters of `width` bytes each. */
  function GetN(b: FdBuf, width: nat, n: nat, reply: Reply<nat>): (r: Hook)
    requires 1 <= width && IsSize(n)
    ensures r.call == ReadCall(b.file.fd, Bytes(width, n))
    ensures width * n < SizeModulus ==> r.call.size == width * n
    ensures r.result == AsStreamSize(reply)
    ensures r.report.Some? <==> reply.Failed?
  {
    var t := File.Read(b.file, Bytes(width, n), reply);
    Hook(AsStreamSize(t.count), t.call, t.report)
  }

  /** A hook's result is the descriptor's count whenever the call succeeds:
      short counts reach the buffer untouched. */
  lemma HooksPassCountThrough(b: FdBuf, width: nat, n: nat, k: nat)
    requires 1 <= width && IsSize(n)
    ensures PutN(b, width, n, Done(k)).result == k
    ensures GetN(b, width, n, Done(k)).result == k
    ensures PutN(b, width, n, Done(k)).report == None
    ensures PutN(b, width, n, Failed).result == -1 && GetN(b, width, n, Failed).result == -1
  {
  }

  // ---------------------------------------------------------------------------
  // impl::basic_fdstream

  /** `impl::basic_fdstream<..., default_mode>`: the kind fixes `default_mode`,
      `size` is the buffer size given at construction. */
  datatype FdStream = FdStream(kind: Kind, size: nat, buf: FdBuf)

  /** The buffer sizing in `open`, from the caller's mode alone. When the mode
      names a direction, each buffer gets `size` if its bit is present and 0
      otherwise; a mode with no direction leaves the capacities as they were. */
  function Sizing(mode: Mode, size: nat, caps: Caps): (r: Caps)
    ensures Read in mode || Write in mode ==>
      r == Caps(if Read in mode then size else 0, if Write in mode then size else 0)
    ensures Read !in mode && Write !in mode ==> r == caps
  {
    SizeChain(Write in mode && Read in mode, mode, size, caps)
  }

  /** The default constructor: size `sz`, descriptor `fd` (invalid for the
      default -1), the base buffer's own capacities. No system call. */
  function Make(kind: Kind, sz: nat, fd: Handle, caps: Caps): (r: FdStream)
    ensures r.kind == kind && r.size == sz && r.buf.caps == caps
    ensures r.buf.file.fd == fd
    ensures r.buf.IsOpen() <==> fd != Invalid
  {
    FdStream(kind, sz, FdBuf(File.Descriptor(fd), caps))
  }

  datatype Opened = Opened(stream: FdStream, call: Call, report: Option<File.Report>)

  /** `open(path, mode)`: size the buffers from `mode`, then open the
      descriptor with `mode | default_mode`. */
  function Open(s: FdStream, path: string, mode: Mode, reply: Reply<nat>): (r: Opened)
    ensures r.stream.kind == s.kind && r.stream.size == s.size
    ensures r.stream.buf.caps == Sizing(mode, s.size, s.buf.caps)
    ensures r.call == OpenCall(path, Convert(mode + DefaultMode(s.kind)), 0)
    ensures r.stream.buf.IsOpen() <==> reply.Done?
    ensures reply.Done? ==> r.stream.buf.file.fd == Fd(reply.value)
    ensures r.report.Some? <==> reply.Failed?
    ensures r.report.Some? ==> r.report.value == File.OpenFailed(path, mode + DefaultMode(s.kind))
  {
    var caps := Sizing(mode, s.size, s.buf.caps);
    var o := File.Open(s.buf.file, path, mode + DefaultMode(s.kind), reply);
    Opened(FdStream(s.kind, s.size, FdBuf(o.file, caps)), o.call, o.report)
  }

  /** The path constructor: default construction with the global `bufsiz`
      and no descriptor, then `open`. */
  function MakeAt(kind: Kind, bufsiz: nat, caps: Caps, path: string, mode: Mode, reply: Reply<nat>): (r: Opened)
    ensures r.stream.size == bufsiz
    ensures r.stream.buf.caps == Sizing(mode, bufsiz, caps)
    ensures r.call == OpenCall(path, Convert(mode + DefaultMode(kind)), 0)
    ensures r.stream.kind == kind
    ensures r.stream.buf.IsOpen() <==> reply.Done?
    ensures reply.Done? ==> r.stream.buf.file.fd == Fd(reply.value)
    ensures r.report.Some? <==> reply.Failed?
  {
    Open(Make(kind, bufsiz, Invalid, caps), path, mode, reply)
  }

  /** The path constructor is `open` on any stream of the same kind, size
      and capacities, whatever descriptor that stream held before. */
  lemma MakeAtIsOpenOfAny(s: FdStream, path: string, mode: Mode, reply: Reply<nat>)
    ensures Open(s, path, mode, reply) == MakeAt(s.kind, s.size, s.buf.caps, path, mode, reply)
  {
    File.OpenForgetsPrevious(s.buf.file, File.Unowned, path, mode + DefaultMode(s.kind), reply);
  }

  /** The descriptor is always opened in the stream kind's direction: an
      output stream is opened writable and an input stream readable, whatever
      the caller's mode says. */
  lemma OpenKeepsKindDirection(s: FdStream, path: string, mode: Mode, reply: Reply<nat>)
    ensures var flags := Open(s, path, mode, reply).call.flags;
      && (s.kind != InOnly ==> WrOnly in flags || RdWr in flags)
      && (s.kind != OutOnly ==> RdOnly in flags || RdWr in flags)
      && (s.kind == InOut ==> RdWr in flags)
  {
    var m := mode + DefaultMode(s.kind);
    assert s.kind != InOnly ==> Write in m;
    assert s.kind != OutOnly ==> Read in m;
  }

  /** Sizing ignores the default mode: an input stream opened with a mode
      that names no direction keeps its old capacities, although the file is
      opened for reading. */
  lemma SizingIgnoresDefault(s: FdStream, path: string, reply: Reply<nat>)
    requires s.kind == InOnly
    ensures Open(s, path, {}, reply).stream.buf.caps == s.buf.caps
    ensures RdOnly in Open(s, path, {}, reply).call.flags
  {
  }
}

=== FILE: file.dfy ===
/**
 The owned-handle layer of file.cpp: `descriptor::open/read/write/close`,
 the `pipe` constructor and `process::run`.

 Each operation issues exactly one system call, recorded in its result as a
 `Call`, and receives the OS answer as a `Reply` parameter. A failure is
 reported (`sys::err`) as a `Report` value carrying the operands the source
 passes to it; the report never changes the state the source has already set.
 */
module File {
  import opened Os
  import opened FileFlags

  /** One owned OS handle. */
  datatype Descriptor = Descriptor(fd: Handle)
  {
    /** `operator bool`: whether the handle is valid. */
    predicate IsOpen(): (b: bool)
      ensures b <==> fd != Invalid
    {
      fd.Fd?
    }
  }

  /** A default-constructed descriptor (`fd = invalid`). */
  const Unowned: Descriptor := Descriptor(Invalid)

  /** What `sys::err` is given on each failure path. */
  datatype Report =
    | OpenFailed(path: string, mask: Mode)
    | ReadFailed(fd: Handle, size: nat)
    | WriteFailed(fd: Handle, size: nat)
    | CloseFailed(fd: Handle)
    | PipeFailed

  /** The outcome of an operation that changes a descriptor. */
  datatype Step = Step(file: Descriptor, call: Call, report: Option<Report>)

  /** The outcome of a read or a write: the raw count and nothing else. */
  datatype Transfer = Transfer(count: Reply<nat>, call: Call, report: Option<Report>)

  // ---------------------------------------------------------------------------
  // descriptor::open

  /** Opens `path` with the open flags of `mask` and permission 0. The handle
      becomes whatever the OS returned, so a failed open leaves the descriptor
      unowned; a previously held handle is overwritten, not closed. */
  function Open(d: Descriptor, path: string, mask: Mode, reply: Reply<nat>): (r: Step)
    ensures r.call == OpenCall(path, Convert(mask), 0)
    ensures r.file.IsOpen() <==> reply.Done?
    ensures reply.Done? ==> r.file.fd == Fd(reply.value)
    ensures r.report.Some? <==> !r.file.IsOpen()
    ensures r.report.Some? ==> r.report.value == OpenFailed(path, mask)
  {
    var fd := if reply.Done? then Fd(reply.value) else Invalid;
    Step(Descriptor(fd), OpenCall(path, Convert(mask), 0),
         if reply.Failed? then Some(OpenFailed(path, mask)) else None)
  }

  /** The result of `open` does not depend on what the descriptor held before. */
  lemma OpenForgetsPrevious(d1: Descriptor, d2: Descriptor, path: string, mask: Mode, reply: Reply<nat>)
    ensures Open(d1, path, mask, reply) == Open(d2, path, mask, reply)
  {
  }

  // ---------------------------------------------------------------------------
  // descriptor::write / descriptor::read

  /** One write attempt of `size` bytes; the OS count is returned as is, so a
      short count is not an error. Only a failed call is reported. */
  function Write(d: Descriptor, size: nat, reply: Reply<nat>): (r: Transfer)
    ensures r.call == WriteCall(d.fd, size)
    ensures r.count == reply
    ensures r.report.Some? <==> reply.Failed?
    ensures r.report.Some? ==> r.report.value == WriteFailed(d.fd, size)
  {
    Transfer(reply, WriteCall(d.fd, size),
             if reply.Failed? then Some(WriteFailed(d.fd, size)) else None)
  }

  /** One read attempt of `size` bytes; symmetric to `Write`. A count of zero
      (end of resource) is not an error either. */
  function Read(d: Descriptor, size: nat, reply: Reply<nat>): (r: Transfer)
    ensures r.call == ReadCall(d.fd, size)
    ensures r.count == reply
    ensures r.report.Some? <==> reply.Failed?
    ensures r.report.Some? ==> r.report.value == ReadFailed(d.fd, size)
  {
    Transfer(reply, ReadCall(d.fd, size),
             if reply.Failed? then Some(ReadFailed(d.fd, size)) else None)
  }

  /** A short write or an end-of-resource read is surfaced unchanged and unreported. */
  lemma ShortTransferIsNotAnError(d: Descriptor, size: nat, k: nat)
    requires k < size
    ensures Write(d, size, Done(k)) == Transfer(Done(k), WriteCall(d.fd, size), None)
    ensures Read(d, size, Done(0)) == Transfer(Done(0), ReadCall(d.fd, size), None)
  {
  }

  // ---------------------------------------------------------------------------
  // descriptor::close

  /** Closes the handle. Only a successful close resets it to `Invalid`; a
      failed close is reported and keeps the handle, which is still owned. */
  function Close(d: Descriptor, reply: Reply<()>): (r: Step)
    ensures r.call == CloseCall(d.fd)
    ensures reply.Done? ==> r.file == Unowned && r.report == None
    ensures reply.Failed? ==> r.file == d && r.report == Some(CloseFailed(d.fd))
  {
    if reply.Failed? then Step(d, CloseCall(d.fd), Some(CloseFailed(d.fd)))
    else Step(Unowned, CloseCall(d.fd), None)
  }

  /** `is_open` along the descriptor's life: not open when default-constructed,
      open after a successful open, not open after a successful close. */
  lemma Lifecycle(path: string, mask: Mode, n: nat)
    ensures !Unowned.IsOpen()
    ensures Open(Unowned, path, mask, Done(n)).file.IsOpen()
    ensures !Close(Open(Unowned, path, mask, Done(n)).file, Done(())).file.IsOpen()
  {
  }

  /** Because a failed close keeps the handle, retrying closes the same handle. */
  lemma CloseRetry(d: Descriptor)
    ensures Close(Close(d, Failed).file, Done(())).call == CloseCall(d.fd)
    ensures Close(Close(d, Failed).file, Done(())).file == Unowned
  {
  }

  // ---------------------------------------------------------------------------
  // pipe::pipe

  /** The two ends of a pipe, as `int fd[2]`: index 0 reads, index 1 writes. */
  datatype Pipe = Pipe(readEnd: Descriptor, writeEnd: Descriptor)

  datatype PipeStep = PipeStep(pipe: Pipe, call: Call, report: Option<Report>)

  /** Creates a pipe with one OS call: either both ends are set or neither is. */
  function MakePipe(reply: Reply<(nat, nat)>): (r: PipeStep)
    ensures r.call == PipeCall
    ensures r.pipe.readEnd.IsOpen() <==> reply.Done?
    ensures r.pipe.writeEnd.IsOpen() <==> reply.Done?
    ensures reply.Done? ==> r.pipe.readEnd.fd == Fd(reply.value.0) && r.pipe.writeEnd.fd == Fd(reply.value.1)
    ensures r.report.Some? <==> reply.Failed?
  {
    if reply.Failed? then PipeStep(Pipe(Unowned, Unowned), PipeCall, Some(PipeFailed))
    else PipeStep(Pipe(Descriptor(Fd(reply.value.0)), Descriptor(Fd(reply.value.1))), PipeCall, None)
  }

  /** A pipe owns both ends or neither. */
  predicate Whole(p: Pipe)
  {
    p.readEnd.IsOpen() <==> p.writeEnd.IsOpen()
  }

  /** Whatever the OS answers, a new pipe is whole; a successful one owns
      both returned handles and a failed one owns nothing. */
  lemma MakePipeIsWhole(reply: Reply<(nat, nat)>)
    ensures Whole(MakePipe(reply).pipe)
    ensures reply.Failed? ==> MakePipe(reply).pipe == Pipe(Unowned, Unowned)
    ensures reply.Done? ==> MakePipe(reply).pipe.readEnd != Unowned && MakePipe(reply).pipe.writeEnd != Unowned
  {
  }

  /** Closing one end of a new pipe closes exactly the handle the OS gave for
      that end and leaves the other end as it was. */
  lemma PipeEndsCloseIndependently(r: nat, w: nat, reply: Reply<()>)
    ensures Close(MakePipe(Done((r, w))).pipe.readEnd, reply).call == CloseCall(Fd(r))
    ensures Close(MakePipe(Done((r, w))).pipe.writeEnd, reply).call == CloseCall(Fd(w))
    ensures reply.Failed? ==> Close(MakePipe(Done((r, w))).pipe.readEnd, reply).file.fd == Fd(r)
  {
  }

  // ---------------------------------------------------------------------------
  // process::run

  /** What `sys::run` hands back on success: the child pid and the parent ends
      of its stdin, stdout and stderr pipes. */
  datatype Spawn = Spawn(pid: nat, stdin: nat, stdout: nat, stderr: nat)

  /** A child process: its pid and the parent's three pipe ends. */
  datatype Process = Process(pid: Handle, stdin: Descriptor, stdout: Descriptor, stderr: Descriptor)
  {
    /** `file[i]`: 0 is the child's stdin (written by the parent), 1 its
        stdout, 2 its stderr. */
    function At(i: nat): (d: Descriptor)
      requires i < 3
    {
      if i == 0 then stdin else if i == 1 then stdout else stderr
    }
  }

  /** A default-constructed process: no pid and no descriptors. */
  const Idle: Process := Process(Invalid, Unowned, Unowned, Unowned)

  datatype RunStep = RunStep(proc: Process, call: Call)

  /** Spawns `argv`. The pid is always overwritten by the OS result; the three
      descriptors are stored only when that pid is valid, and kept as they
      were otherwise. No failure is reported here. */
  function Run(p: Process, argv: seq<Arg>, reply: Reply<Spawn>): (r: RunStep)
    ensures r.call == RunCall(argv)
    ensures r.proc.pid.Fd? <==> reply.Done?
    ensures reply.Failed? ==> r.proc.stdin == p.stdin && r.proc.stdout == p.stdout && r.proc.stderr == p.stderr
    ensures reply.Done? ==>
      && r.proc.pid == Fd(reply.value.pid)
      && r.proc.stdin == Descriptor(Fd(reply.value.stdin))
      && r.proc.stdout == Descriptor(Fd(reply.value.stdout))
      && r.proc.stderr == Descriptor(Fd(reply.value.stderr))
  {
    match reply
    case Failed => RunStep(p.(pid := Invalid), RunCall(argv))
    case Done(s) =>
      RunStep(Process(Fd(s.pid), Descriptor(Fd(s.stdin)), Descriptor(Fd(s.stdout)), Descriptor(Fd(s.stderr))),
              RunCall(argv))
  }

  /** A process whose pid is invalid owns none of its three ends. */
  predicate Consistent(p: Process)
  {
    p.pid == Invalid ==> !p.stdin.IsOpen() && !p.stdout.IsOpen() && !p.stderr.IsOpen()
  }

  /** `run` leaves a consistent process exactly when the spawn succeeds or
      the process held no ends before: a failed spawn over a live process
      invalidates the pid but keeps the old ends. */
  lemma RunConsistent(p: Process, argv: seq<Arg>, reply: Reply<Spawn>)
    ensures Consistent(Run(p, argv, reply).proc)
        <==> reply.Done? || (!p.stdin.IsOpen() && !p.stdout.IsOpen() && !p.stderr.IsOpen())
  {
  }

  /** The case above made concrete: a live process whose respawn fails keeps
      its three ends while its pid becomes invalid. */
  lemma FailedRespawnKeepsEnds(argv: seq<Arg>, s: Spawn)
    ensures var q := Run(Run(Idle, argv, Done(s)).proc, argv, Failed).proc;
      q.pid == Invalid && q.stdin.IsOpen() && q.stdout.IsOpen() && q.stderr.IsOpen()
      && !Consistent(q)
  {
  }

  /** A failed spawn from a fresh process leaves it entirely unowned. */
  lemma FailedSpawnLeavesUnowned(argv: seq<Arg>)
    ensures Run(Idle, argv, Failed).proc == Idle
    ensures forall i: nat :: i < 3 ==> !Run(Idle, argv, Failed).proc.At(i).IsOpen()
  {
  }
}

=== FILE: fileflags.dfy ===
/**
 Translation of the portable open-mode and permission bit sets into platform
 flags (file.cpp, `access(mode)`, `convert(mode)` and `convert(permit)`).

 A portable bit set is a `set` of its bits; `bit & x` in the source is `x in m`.
 The direction bits are called `read`/`write` in file.cpp, `in`/`out` in fds.hpp
 and `rd`/`wr` in include/fs.hpp; they are the same two bits here.
 */
module FileFlags {
  import opened Os

  datatype ModeBit = Extant | Run | Read | Write | Text | Binary | Append | Erase | Only

  type Mode = set<ModeBit>

  datatype PermitBit =
    | OwnerR | OwnerW | OwnerX
    | GroupR | GroupW | GroupX
    | OtherR | OtherW | OtherX

  type Permit = set<PermitBit>

  /** `rd`, `wr` and `rw` of include/fs.hpp. */
  const RD: Mode := {Read}
  const WR: Mode := {Write}
  const RW: Mode := {Read, Write}

  /** The bits `access` looks at. */
  const ProbeBits: Mode := {Extant, Run, Read, Write}

  // ---------------------------------------------------------------------------
  // access(mode)

  /** The access-probe flags for a mode: one flag per probe bit, nothing else. */
  function Access(mode: Mode): (r: set<AccessFlag>)
    ensures FOk in r <==> Extant in mode
    ensures XOk in r <==> Run in mode
    ensures ROk in r <==> Read in mode
    ensures WOk in r <==> Write in mode
  {
    var f := {};
    var f := if Extant in mode then f + {FOk} else f;
    var f := if Run in mode then f + {XOk} else f;
    var f := if Read in mode then f + {ROk} else f;
    var f := if Write in mode then f + {WOk} else f;
    f
  }

  /** `access` distributes over the union of modes. */
  lemma AccessUnion(a: Mode, b: Mode)
    ensures Access(a + b) == Access(a) + Access(b)
  {
    forall f: AccessFlag ensures f in Access(a + b) <==> f in Access(a) + Access(b) {
    }
  }

  /** Two modes probe the same flags exactly when they agree on the probe bits. */
  lemma AccessDeterminedByProbeBits(a: Mode, b: Mode)
    ensures Access(a) == Access(b) <==> a * ProbeBits == b * ProbeBits
  {
    if Access(a) == Access(b) {
      forall x | x in ProbeBits ensures x in a <==> x in b {
        assert x in {Extant, Run, Read, Write};
        if x == Extant { assert FOk in Access(a) <==> FOk in Access(b); }
        if x == Run { assert XOk in Access(a) <==> XOk in Access(b); }
        if x == Read { assert ROk in Access(a) <==> ROk in Access(b); }
        if x == Write { assert WOk in Access(a) <==> WOk in Access(b); }
      }
    }
    if a * ProbeBits == b * ProbeBits {
      assert Extant in a <==> Extant in b by { assert Extant in a <==> Extant in a * ProbeBits; assert Extant in b <==> Extant in b * ProbeBits; }
      assert Run in a <==> Run in b by { assert Run in a <==> Run in a * ProbeBits; assert Run in b <==> Run in b * ProbeBits; }
      assert Read in a <==> Read in b by { assert Read in a <==> Read in a * ProbeBits; assert Read in b <==> Read in b * ProbeBits; }
      assert Write in a <==> Write in b by { assert Write in a <==> Write in a * ProbeBits; assert Write in b <==> Write in b * ProbeBits; }
      forall f: AccessFlag ensures f in Access(a) <==> f in Access(b) {
      }
    }
  }

  // ---------------------------------------------------------------------------
  // convert(mode)

  /** The open flags for a mode. Direction: read+write gives RdWr, else write
      gives WrOnly, else read gives RdOnly. Translation: text wins over binary.
      Append, erase and only map one to one; the absence of extant adds Creat. */
  function Convert(mode: Mode): (r: set<OpenFlag>)
    ensures RdWr in r <==> Read in mode && Write in mode
    ensures WrOnly in r <==> Write in mode && Read !in mode
    ensures RdOnly in r <==> Read in mode && Write !in mode
    ensures TextMode in r <==> Text in mode
    ensures BinaryMode in r <==> Binary in mode && Text !in mode
    ensures AppendMode in r <==> Append in mode
    ensures Trunc in r <==> Erase in mode
    ensures Excl in r <==> Only in mode
    ensures Creat in r <==> Extant !in mode
  {
    var f := {};
    var f :=
      if Read in mode && Write in mode then f + {RdWr}
      else if Write in mode then f + {WrOnly}
      else if Read in mode then f + {RdOnly}
      else f;
    var f :=
      if Text in mode then f + {TextMode}
      else if Binary in mode then f + {BinaryMode}
      else f;
    var f := if Append in mode then f + {AppendMode} else f;
    var f := if Erase in mode then f + {Trunc} else f;
    var f := if Only in mode then f + {Excl} else f;
    var f := if Extant !in mode then f + {Creat} else f;
    f
  }

  /** At most one access-direction flag is ever set, and none exactly when the
      mode names no direction. */
  lemma ConvertOneDirection(mode: Mode)
    ensures var c := Convert(mode);
      && (RdWr in c ==> WrOnly !in c && RdOnly !in c)
      && (WrOnly in c ==> RdOnly !in c)
      && (RdWr !in c && WrOnly !in c && RdOnly !in c <==> Read !in mode && Write !in mode)
  {
  }

  /** Whether two modes are indistinguishable to `convert`: same direction bits,
      same effective translation, same append/erase/only/extant bits. */
  predicate SameOpen(a: Mode, b: Mode)
  {
    && (Read in a <==> Read in b)
    && (Write in a <==> Write in b)
    && (Text in a <==> Text in b)
    && (Binary in a && Text !in a <==> Binary in b && Text !in b)
    && (Append in a <==> Append in b)
    && (Erase in a <==> Erase in b)
    && (Only in a <==> Only in b)
    && (Extant in a <==> Extant in b)
  }

  /** `convert` loses exactly the run bit and a binary bit shadowed by text. */
  lemma ConvertDeterminedBy(a: Mode, b: Mode)
    ensures Convert(a) == Convert(b) <==> SameOpen(a, b)
  {
    if SameOpen(a, b) {
      forall f: OpenFlag ensures f in Convert(a) <==> f in Convert(b) {
      }
    }
    if Convert(a) == Convert(b) {
      var ca, cb := Convert(a), Convert(b);
      assert RdWr in ca <==> RdWr in cb;
      assert RdOnly in ca <==> RdOnly in cb;
      assert WrOnly in ca <==> WrOnly in cb;
      assert TextMode in ca <==> TextMode in cb;
      assert BinaryMode in ca <==> BinaryMode in cb;
      assert AppendMode in ca <==> AppendMode in cb;
      assert Trunc in ca <==> Trunc in cb;
      assert Excl in ca <==> Excl in cb;
      assert Creat in ca <==> Creat in cb;
    }
  }

  /** Text has priority: a mode with both translation bits opens as text only. */
  lemma TextWinsOverBinary(mode: Mode)
    requires Text in mode && Binary in mode
    ensures Convert(mode) == Convert(mode - {Binary})
    ensures TextMode in Convert(mode) && BinaryMode !in Convert(mode)
  {
    ConvertDeterminedBy(mode, mode - {Binary});
  }

  // ---------------------------------------------------------------------------
  // convert(permit)

  /** The platform flag of one permission bit. */
  function PermFlagOf(b: PermitBit): (f: PermFlag)
  {
    match b
    case OwnerX => IxUsr
    case OwnerW => IwUsr
    case OwnerR => IrUsr
    case GroupX => IxGrp
    case GroupW => IwGrp
    case GroupR => IrGrp
    case OtherX => IxOth
    case OtherW => IwOth
    case OtherR => IrOth
  }

  /** The permission bit a platform flag stands for. */
  function PermitBitOf(f: PermFlag): (b: PermitBit)
    ensures PermFlagOf(b) == f
  {
    match f
    case IxUsr => OwnerX
    case IwUsr => OwnerW
    case IrUsr => OwnerR
    case IxGrp => GroupX
    case IwGrp => GroupW
    case IrGrp => GroupR
    case IxOth => OtherX
    case IwOth => OtherW
    case IrOth => OtherR
  }

  /** The platform permission value of a mask: each flag is present exactly
      when its own permission bit is. */
  function ConvertPermit(p: Permit): (r: set<PermFlag>)
    ensures forall b :: b in p <==> PermFlagOf(b) in r
    ensures forall f :: f in r <==> PermitBitOf(f) in p
  {
    PermBit(p, OwnerX) + PermBit(p, OwnerW) + PermBit(p, OwnerR)
    + PermBit(p, GroupX) + PermBit(p, GroupW) + PermBit(p, GroupR)
    + PermBit(p, OtherX) + PermBit(p, OtherW) + PermBit(p, OtherR)
  }

  /** One `if (bit & b) flags |= F;` step of `convert(permit)`. */
  function PermBit(p: Permit, b: PermitBit): (r: set<PermFlag>)
  {
    if b in p then {PermFlagOf(b)} else {}
  }

  /** The permission mask a platform permission value encodes. */
  function PermitOf(flags: set<PermFlag>): (p: Permit)
  {
    set f | f in flags :: PermitBitOf(f)
  }

  /** The mask can be read back from its platform value: no two masks collide. */
  lemma PermitRoundTrip(p: Permit)
    ensures PermitOf(ConvertPermit(p)) == p
  {
    var r := ConvertPermit(p);
    forall b | b in p ensures b in PermitOf(r) {
      assert PermFlagOf(b) in r;
      assert PermitBitOf(PermFlagOf(b)) == b by {
        match b
        case OwnerX => case OwnerW => case OwnerR =>
        case GroupX => case GroupW => case GroupR =>
        case OtherX => case OtherW => case OtherR =>
      }
    }
  }

  /** The permission of a union of masks is the OR of their permissions. */
  lemma ConvertPermitUnion(a: Permit, b: Permit)
    ensures ConvertPermit(a + b) == ConvertPermit(a) + ConvertPermit(b)
  {
    forall f: PermFlag ensures f in ConvertPermit(a + b) <==> f in ConvertPermit(a) + ConvertPermit(b) {
    }
  }
}

=== FILE: fs.dfy ===
/**
 The file stream of include/fs.hpp: `impl::basic_fdstream<..., Default>`,
 which owns one descriptor, sizes its buffers in both constructors and opens
 with the caller's mask OR'd with the kind's `Default`.

 The constructors' sizing test `if (mask & rw)` is true for any mask that
 names a direction once `rw` is `rd | wr`, so the `wr` and `rd` branches
 after it can never run. `Make` and `MakeAt` are the constructors as
 written, sizing with that test (`SizingAsWritten`); `MakeIntended` and
 `MakeAtIntended` are the same constructors with the sizing of fds.hpp
 (`Fds.Sizing`, whose first test needs both bits).
 */
module Fs {
  import opened Os
  import opened FileFlags
  import opened Membuf
  import File
  import Fds

  /** The stream: its kind (fixing `Default`), descriptor and capacities. */
  datatype FsStream = FsStream(kind: Kind, f: File.Descriptor, caps: Caps)

  /** The constructors' sizing chain, exactly as written (`mask & wr` and
      `mask & rd` test the same bits as `Write in mask` and `Read in mask`). */
  function SizingAsWritten(mask: Mode, size: nat, caps: Caps): (r: Caps)
    ensures mask * RW != {} ==> r == Caps(size, size)
    ensures mask * RW == {} ==> r == caps
    ensures Read in mask || Write in mask ==> r == Caps(size, size)
  {
    assert Read in mask ==> Read in mask * RW;
    assert Write in mask ==> Write in mask * RW;
    SizeChain(mask * RW != {}, mask, size, caps)
  }

  /** As written, an input-only mask gets an output buffer and an output-only
      mask an input buffer; the fds.hpp sizing gives them none. */
  lemma SingleDirectionGetsBothBuffers(size: nat, caps: Caps)
    requires size > 0
    ensures SizingAsWritten(RD, size, caps) == Caps(size, size)
    ensures SizingAsWritten(WR, size, caps) == Caps(size, size)
    ensures Fds.Sizing(RD, size, caps) == Caps(size, 0)
    ensures Fds.Sizing(WR, size, caps) == Caps(0, size)
  {
    assert Read in RD * RW;
    assert Write in WR * RW;
  }

  /** The literal test agrees with the intended sizing exactly on the masks
      that name both directions or none. */
  lemma SizingAsWrittenAgreement(mask: Mode, size: nat, caps: Caps)
    requires size > 0
    ensures SizingAsWritten(mask, size, caps) == Fds.Sizing(mask, size, caps)
        <==> (Read in mask <==> Write in mask)
  {
    assert mask * RW != {} <==> Read in mask || Write in mask by {
      if Read in mask { assert Read in mask * RW; }
      if Write in mask { assert Write in mask * RW; }
    }
  }

  /** The first constructor as written: no descriptor, and any direction
      in `mask` gives both buffers `size`; a mask with no direction leaves
      the base buffer's own capacities `caps`. */
  function Make(kind: Kind, mask: Mode, size: nat, caps: Caps): (r: FsStream)
    ensures !r.f.IsOpen() && r.kind == kind
    ensures Read in mask || Write in mask ==> r.caps == Caps(size, size)
    ensures Read !in mask && Write !in mask ==> r.caps == caps
  {
    FsStream(kind, File.Unowned, SizingAsWritten(mask, size, caps))
  }

  datatype Opened = Opened(stream: FsStream, ok: bool, call: Call, report: Option<File.Report>)

  /** The path constructor as written: the descriptor is opened with
      `mask | Default` and the capacities are sized as in `Make`. */
  function MakeAt(kind: Kind, path: string, mask: Mode, size: nat, caps: Caps, reply: Reply<nat>): (r: Opened)
    ensures Read in mask || Write in mask ==> r.stream.caps == Caps(size, size)
    ensures Read !in mask && Write !in mask ==> r.stream.caps == caps
    ensures r.call == OpenCall(path, Convert(mask + DefaultMode(kind)), 0)
    ensures r.stream.kind == kind
    ensures r.stream.f.IsOpen() <==> reply.Done?
    ensures reply.Done? ==> r.stream.f.fd == Fd(reply.value)
    ensures r.ok <==> r.stream.f.IsOpen()
    ensures r.report.Some? <==> reply.Failed?
  {
    var o := File.Open(File.Unowned, path, mask + DefaultMode(kind), reply);
    Opened(FsStream(kind, o.file, SizingAsWritten(mask, size, caps)), o.file.IsOpen(), o.call, o.report)
  }

  /** The first constructor with the intended sizing: each buffer gets `size`
      exactly when its own direction bit is in `mask`. */
  function MakeIntended(kind: Kind, mask: Mode, size: nat, caps: Caps): (r: FsStream)
    ensures !r.f.IsOpen() && r.kind == kind
    ensures Read in mask || Write in mask ==>
      r.caps == Caps(if Read in mask then size else 0, if Write in mask then size else 0)
    ensures Read !in mask && Write !in mask ==> r.caps == caps
  {
    FsStream(kind, File.Unowned, Fds.Sizing(mask, size, caps))
  }

  /** The path constructor with the intended sizing. */
  function MakeAtIntended(kind: Kind, path: string, mask: Mode, size: nat, caps: Caps, reply: Reply<nat>): (r: Opened)
    ensures Read in mask || Write in mask ==>
      r.stream.caps == Caps(if Read in mask then size else 0, if Write in mask then size else 0)
    ensures Read !in mask && Write !in mask ==> r.stream.caps == caps
    ensures r.call == OpenCall(path, Convert(mask + DefaultMode(kind)), 0)
    ensures r.stream.kind == kind
    ensures r.stream.f.IsOpen() <==> reply.Done?
    ensures reply.Done? ==> r.stream.f.fd == Fd(reply.value)
    ensures r.ok <==> r.stream.f.IsOpen()
    ensures r.report.Some? <==> reply.Failed?
  {
    var o := File.Open(File.Unowned, path, mask + DefaultMode(kind), reply);
    Opened(FsStream(kind, o.file, Fds.Sizing(mask, size, caps)), o.file.IsOpen(), o.call, o.report)
  }

  /** The constructors as written and as intended differ only in the
      capacities, and those agree exactly when the mask names both
      directions or none. */
  lemma MakeAsWrittenAgreement(kind: Kind, path: string, mask: Mode, size: nat, caps: Caps, reply: Reply<nat>)
    requires size > 0
    ensures Make(kind, mask, size, caps).f == MakeIntended(kind, mask, size, caps).f
    ensures MakeAt(kind, path, mask, size, caps, reply).call == MakeAtIntended(kind, path, mask, size, caps, reply).call
    ensures MakeAt(kind, path, mask, size, caps, reply).stream.f == MakeAtIntended(kind, path, mask, size, caps, reply).stream.f
    ensures Make(kind, mask, size, caps) == MakeIntended(kind, mask, size, caps)
        <==> (Read in mask <==> Write in mask)
  {
    SizingAsWrittenAgreement(mask, size, caps);
  }

  /** `open`: opens the descriptor with `mask | Default` and returns whether
      it succeeded; the capacities are not touched. */
  function Open(s: FsStream, path: string, mask: Mode, reply: Reply<nat>): (r: Opened)
    ensures r.stream.caps == s.caps && r.stream.kind == s.kind
    ensures r.call == OpenCall(path, Convert(mask + DefaultMode(s.kind)), 0)
    ensures r.ok <==> reply.Done?
    ensures r.ok <==> r.stream.f.IsOpen()
    ensures reply.Done? ==> r.stream.f.fd == Fd(reply.value)
    ensures r.report.Some? <==> reply.Failed?
  {
    var o := File.Open(s.f, path, mask + DefaultMode(s.kind), reply);
    Opened(s.(f := o.file), o.file.IsOpen(), o.call, o.report)
  }

  datatype Closed = Closed(stream: FsStream, call: Call, report: Option<File.Report>)

  /** `close`: the descriptor's close, its failure report passed on;
      capacities and kind are untouched. */
  function Close(s: FsStream, reply: Reply<()>): (r: Closed)
    ensures r.stream.caps == s.caps && r.stream.kind == s.kind
    ensures r.call == CloseCall(s.f.fd)
    ensures reply.Done? ==> !r.stream.f.IsOpen() && r.report == None
    ensures reply.Failed? ==> r.stream.f == s.f && r.report == Some(File.CloseFailed(s.f.fd))
  {
    var c := File.Close(s.f, reply);
    Closed(s.(f := c.file), c.call, c.report)
  }

  /** Constructing without a path and then opening with any mask gives the
      same OS call and the same stream as the path constructor with that
      mask: both OR the kind's default into the mask and size from it. */
  lemma OpenMatchesMakeAt(kind: Kind, path: string, mask: Mode, size: nat, caps: Caps, reply: Reply<nat>)
    ensures Open(Make(kind, mask, size, caps), path, mask, reply).call
         == MakeAt(kind, path, mask, size, caps, reply).call
    ensures Open(Make(kind, mask, size, caps), path, mask, reply).stream
         == MakeAt(kind, path, mask, size, caps, reply).stream
  {
  }
}

=== FILE: ipc.dfy ===
/**
 The process stream buffer and stream of ipc.hpp. `execute` spawns the
 child with a null-terminated argument vector; the output hook writes to the
 child's stdin end (`file[0]`), the input hook reads its stdout end
 (`file[1]`), and the stderr end (`file[2]`) is never used by either.
 */
module Ipc {
  import opened Os
  import opened Membuf
  import File

  /** `basic_procbuf`: one process and the two buffer capacities. */
  datatype ProcBuf = ProcBuf(file: File.Process, caps: Caps)

  // ---------------------------------------------------------------------------
  // execute

  /** The vector `execute` builds: every argument, then one null terminator. */
  function Argv(args: seq<string>): (r: seq<Arg>)
    ensures |r| == |args| + 1
    ensures r[|args|] == Null
    ensures forall i :: 0 <= i < |args| ==> r[i] == Str(args[i])
  {
    seq(|args|, i requires 0 <= i < |args| => Str(args[i])) + [Null]
  }

  /** How a C callee reads a `char const**`: the strings up to the first null,
      or nothing if there is no null. */
  function Terminated(argv: seq<Arg>): (r: Option<seq<string>>)
  {
    if |argv| == 0 then None
    else match argv[0]
      case Null => Some([])
      case Str(s) =>
        match Terminated(argv[1..])
        case None => None
        case Some(rest) => Some([s] + rest)
  }

  /** The child receives exactly `args`: the terminator is the only null and
      comes right after them. */
  lemma {:induction false} ArgvRoundTrip(args: seq<string>)
    ensures Terminated(Argv(args)) == Some(args)
  {
    if |args| > 0 {
      assert Argv(args)[1..] == Argv(args[1..]);
      ArgvRoundTrip(args[1..]);
      assert [args[0]] + args[1..] == args;
    }
  }

  datatype Executed = Executed(buf: ProcBuf, ok: bool, call: Call)

  /** `execute(args)`: one spawn of `Argv(args)`; true when the pid is valid. */
  function Execute(b: ProcBuf, args: seq<string>, reply: Reply<File.Spawn>): (r: Executed)
    ensures r.call == RunCall(Argv(args))
    ensures r.ok <==> reply.Done?
    ensures r.ok <==> r.buf.file.pid.Fd?
    ensures r.buf.caps == b.caps
    ensures !r.ok ==> (r.buf.file.stdin == b.file.stdin && r.buf.file.stdout == b.file.stdout
                       && r.buf.file.stderr == b.file.stderr)
    ensures reply.Done? ==> (r.buf.file.pid == Fd(reply.value.pid)
                          && r.buf.file.stdin.fd == Fd(reply.value.stdin)
                          && r.buf.file.stdout.fd == Fd(reply.value.stdout)
                          && r.buf.file.stderr.fd == Fd(reply.value.stderr))
  {
    var s := File.Run(b.file, Argv(args), reply);
    Executed(ProcBuf(s.proc, b.caps), s.proc.pid.Fd?, s.call)
  }

  // ---------------------------------------------------------------------------
  // xsputn / xsgetn

  /** `xsputn`: one write of `n * width` bytes to `file[0]`. */
  function PutN(b: ProcBuf, width: nat, n: nat, reply: Reply<nat>): (r: Hook)
    requires 1 <= width && IsSize(n)
    ensures r.call == WriteCall(b.file.At(0).fd, Bytes(width, n))
    ensures r.result == AsStreamSize(reply)
    ensures r.report.Some? <==> reply.Failed?
  {
    var t := File.Write(b.file.At(0), Bytes(width, n), reply);
    Hook(AsStreamSize(t.count), t.call, t.report)
  }

  /** `xsgetn`: one read of `n * width` bytes from `file[1]`. */
  function GetN(b: ProcBuf, width: nat, n: nat, reply: Reply<nat>): (r: Hook)
    requires 1 <= width && IsSize(n)
    ensures r.call == ReadCall(b.file.At(1).fd, Bytes(width, n))
    ensures r.result == AsStreamSize(reply)
    ensures r.report.Some? <==> reply.Failed?
  {
    var t := File.Read(b.file.At(1), Bytes(width, n), reply);
    Hook(AsStreamSize(t.count), t.call, t.report)
  }

  /** The hooks depend on nothing but their own descriptor: replacing the
      stderr end, or the other direction's end, changes neither hook. */
  lemma HooksIgnoreOtherEnds(b: ProcBuf, other: File.Descriptor, width: nat, n: nat, reply: Reply<nat>)
    requires 1 <= width && IsSize(n)
    ensures PutN(b, width, n, reply) == PutN(b.(file := b.file.(stderr := other)), width, n, reply)
    ensures GetN(b, width, n, reply) == GetN(b.(file := b.file.(stderr := other)), width, n, reply)
    ensures PutN(b, width, n, reply) == PutN(b.(file := b.file.(stdout := other)), width, n, reply)
    ensures GetN(b, width, n, reply) == GetN(b.(file := b.file.(stdin := other)), width, n, reply)
  {
  }

  // ---------------------------------------------------------------------------
  // impl::basic_pstream

  /** `impl::basic_pstream`: a process buffer under a stream of some kind. */
  datatype PStream = PStream(kind: Kind, buf: ProcBuf)

  /** The default constructor: no process, both buffers of size `sz`
      (the one-argument `setbufsiz`), whatever the kind. */
  function Make(kind: Kind, sz: nat): (r: PStream)
    ensures r.buf.caps == Caps(sz, sz)
    ensures r.buf.file == File.Idle
    ensures r.kind == kind
  {
    PStream(kind, ProcBuf(File.Idle, Caps(sz, sz)))
  }

  /** The argument constructor: default construction with the global `bufsiz`
      followed by one `execute(args)`; on failure nothing is owned. */
  function MakeRun(kind: Kind, bufsiz: nat, args: seq<string>, reply: Reply<File.Spawn>): (r: PStream)
    ensures r.buf.caps == Caps(bufsiz, bufsiz)
    ensures r.buf.file.pid.Fd? <==> reply.Done?
    ensures reply.Failed? ==> r.buf.file == File.Idle
    ensures reply.Done? ==> (r.buf.file.At(0).fd == Fd(reply.value.stdin)
                          && r.buf.file.At(1).fd == Fd(reply.value.stdout))
  {
    var e := Execute(Make(kind, bufsiz).buf, args, reply);
    PStream(kind, e.buf)
  }

  /** A default-constructed process stream is consistent, owns nothing, and
      its hooks would address the invalid handle. */
  lemma MakeOwnsNothing(kind: Kind, sz: nat, width: nat, n: nat, reply: Reply<nat>)
    requires 1 <= width && IsSize(n)
    ensures File.Consistent(Make(kind, sz).buf.file)
    ensures forall i: nat :: i < 3 ==> !Make(kind, sz).buf.file.At(i).IsOpen()
    ensures PutN(Make(kind, sz).buf, width, n, reply).call.fd == Invalid
    ensures GetN(Make(kind, sz).buf, width, n, reply).call.fd == Invalid
  {
  }

  /** A process stream built with arguments is always consistent, and once
      the spawn succeeds its output hook writes the child's stdin end and its
      input hook reads the child's stdout end. */
  lemma MakeRunWiresHooks(kind: Kind, bufsiz: nat, args: seq<string>, s: File.Spawn,
                          width: nat, n: nat, reply: Reply<nat>)
    requires 1 <= width && IsSize(n)
    ensures File.Consistent(MakeRun(kind, bufsiz, args, Failed).buf.file)
    ensures File.Consistent(MakeRun(kind, bufsiz, args, Done(s)).buf.file)
    ensures PutN(MakeRun(kind, bufsiz, args, Done(s)).buf, width, n, reply).call
         == WriteCall(Fd(s.stdin), Bytes(width, n))
    ensures GetN(MakeRun(kind, bufsiz, args, Done(s)).buf, width, n, reply).call
         == ReadCall(Fd(s.stdout), Bytes(width, n))
  {
  }
}

=== FILE: membuf.dfy ===
/**
 What the stream adapters need of the buffered-stream base: the two buffer
 capacities, the stream kinds with their default directions, and the
 `size_t` arithmetic and the result of the fill/flush hooks.
 */
module Membuf {
  import opened Os
  import opened FileFlags
  import File

  /** Input and output buffer capacities, as given to `setbufsiz`. */
  datatype Caps = Caps(input: nat, output: nat)

  /** The stream kinds of the alias types: iostream, istream and ostream. */
  datatype Kind = InOut | InOnly | OutOnly

  /** The default mode of each stream kind (`in|out`, `in`, `out`, which
      include/fs.hpp spells `rw`, `rd`, `wr`). */
  function DefaultMode(k: Kind): (m: Mode)
    ensures Read in m <==> k != OutOnly
    ensures Write in m <==> k != InOnly
    ensures m <= RW
  {
    match k
    case InOut => RW
    case InOnly => RD
    case OutOnly => WR
  }

  /** The `setbufsiz` chain both stream headers write: `both` is the first
      test of the chain, then output-only, then input-only; a mode with
      no direction leaves the capacities alone. */
  function SizeChain(both: bool, mode: Mode, size: nat, caps: Caps): (r: Caps)
  {
    if both then Caps(size, size)
    else if Write in mode then Caps(0, size)
    else if Read in mode then Caps(size, 0)
    else caps
  }

  /** 2^64: `size_t` is a 64-bit unsigned integer. */
  const SizeModulus: nat := 0x1_0000_0000_0000_0000

  predicate IsSize(n: nat) { n < SizeModulus }

  /** The byte count `n * sizeof(char_type)`, computed in `size_t`. */
  function Bytes(width: nat, n: nat): (b: nat)
    requires 1 <= width && IsSize(n)
    ensures IsSize(b)
    ensures width * n < SizeModulus ==> b == width * n
    ensures width == 1 ==> b == n
  {
    (width * n) % SizeModulus
  }

  /** What a fill/flush hook returns to the buffer, with the call it issued
      and the descriptor's report. */
  datatype Hook = Hook(result: int, call: Call, report: Option<File.Report>)

  /** The `ssize_t` count of a read or write as the hook's signed
      `std::streamsize` result: a count passes through unchanged and the
      failure value -1 stays -1, so the result is negative exactly when the
      call failed. */
  function AsStreamSize(count: Reply<nat>): (r: int)
    ensures r >= -1
    ensures r < 0 <==> count.Failed?
    ensures count.Done? ==> r == count.value
  {
    match count
    case Done(n) => n
    case Failed => -1
  }
}

=== FILE: opt.dfy ===
/**
 Option lookup of src/opt.cpp over an abstract option context: the command
 line arguments (already split into key/value pairs), the environment, and
 the INI registry keyed by (section, key) pairs.

 A value beginning with `@` in the registry is an alias: lookup continues at
 the key named after the `@`, in the same section, and stops with the empty
 value (`fmt::nil`) when an alias value comes round a second time.
 */
module Opt {
  import opened Os

  /** An INI (section, key) pair. */
  type Pair = (string, string)

  type Registry = map<Pair, string>

  /** Everything a lookup consults. `section` is the section `make_pair`
      puts a bare key in. */
  datatype Options = Options(args: seq<Pair>, env: map<string, string>, reg: Registry, section: string)

  /** `fmt::nil`, which is also what a missing entry reads as. */
  const Nil: string := ""

  /** `make_pair(key)`: the bare key in the application's section. */
  function MakePair(section: string, key: string): (p: Pair)
  {
    (section, key)
  }

  /** The registry's `get`: the stored value, or empty when absent. */
  function Lookup(reg: Registry, key: Pair): (v: string)
  {
    if key in reg then reg[key] else Nil
  }

  /** `env::var::get`: the variable's value, or empty when unset. */
  function EnvGet(env: map<string, string>, name: string): (v: string)
  {
    if name in env then env[name] else Nil
  }

  // ---------------------------------------------------------------------------
  // get(pair): alias resolution

  predicate IsAlias(v: string)
  {
    |v| > 0 && v[0] == '@'
  }

  /** All alias values stored in the registry. */
  function Aliases(reg: Registry): (vs: set<string>)
  {
    set v | v in reg.Values && IsAlias(v)
  }

  /** The key an alias value sends the lookup to: same section, the text
      after `@` as key. A non-alias value goes nowhere. */
  function Next(reg: Registry, key: Pair): (k: Pair)
  {
    var v := Lookup(reg, key);
    if IsAlias(v) then (key.0, v[1..]) else key
  }

  /** Alias resolution with `seen` the alias values already followed. The
      result is never an alias, and it is empty or a value in the registry.
      Each step adds a new registry alias to `seen`, so the lookup ends. */
  function Resolve(reg: Registry, key: Pair, seen: set<string>): (r: string)
    ensures !IsAlias(r)
    ensures r == Nil || r in reg.Values
    decreases |Aliases(reg) - seen|
  {
    var value := Lookup(reg, key);
    assert IsAlias(value) ==> value in reg.Values;
    if !IsAlias(value) then value
    else if value in seen then Nil
    else
      FewerUnseen(reg, seen, value);
      Resolve(reg, (key.0, value[1..]), seen + {value})
  }

  /** Following a new alias leaves fewer registry aliases unseen. */
  lemma FewerUnseen(reg: Registry, seen: set<string>, value: string)
    requires value in reg.Values && IsAlias(value) && value !in seen
    ensures |Aliases(reg) - (seen + {value})| < |Aliases(reg) - seen|
  {
    var a, b := Aliases(reg) - (seen + {value}), Aliases(reg) - seen;
    assert value in b;
    assert b == a + {value};
  }

  /** `get(pair)` as the source writes it: a loop with a set of visited
      values, which computes `Resolve` from an empty set. */
  method GetPair(reg: Registry, key: Pair) returns (r: string)
    ensures r == Resolve(reg, key, {})
    ensures !IsAlias(r)
  {
    var k := key;
    var seen: set<string> := {};
    while true
      invariant Resolve(reg, k, seen) == Resolve(reg, key, {})
      decreases |Aliases(reg) - seen|
    {
      var value := Lookup(reg, k);
      assert IsAlias(value) ==> value in reg.Values;
      if !IsAlias(value) {
        return value;
      }
      if value in seen {
        break;
      }
      FewerUnseen(reg, seen, value);
      seen := seen + {value};
      k := (k.0, value[1..]);
    }
    r := Nil;
  }

  /** The key reached after `n` alias hops from `key`. */
  function Hop(reg: Registry, key: Pair, n: nat): (k: Pair)
    decreases n
  {
    if n == 0 then key else Hop(reg, Next(reg, key), n - 1)
  }

  /** The value found after `n` hops. */
  function Val(reg: Registry, key: Pair, n: nat): (v: string)
  {
    Lookup(reg, Hop(reg, key, n))
  }

  /** The values seen on the first `n` hops. */
  function Visited(reg: Registry, key: Pair, n: nat): (vs: set<string>)
  {
    set i | 0 <= i < n :: Val(reg, key, i)
  }

  /** Following `n` distinct, unseen aliases leaves the result unchanged. */
  lemma {:induction false} ResolveWalk(reg: Registry, key: Pair, seen: set<string>, n: nat)
    requires forall i :: 0 <= i < n ==> IsAlias(Val(reg, key, i)) && Val(reg, key, i) !in seen
    requires forall i, j :: 0 <= i < j < n ==> Val(reg, key, i) != Val(reg, key, j)
    ensures Resolve(reg, key, seen) == Resolve(reg, Hop(reg, key, n), seen + Visited(reg, key, n))
    decreases n
  {
    if n == 0 {
      assert Visited(reg, key, 0) == {};
      assert Hop(reg, key, 0) == key;
      assert seen + Visited(reg, key, 0) == seen;
    } else {
      var v0 := Val(reg, key, 0);
      var nk := Next(reg, key);
      assert Hop(reg, key, 0) == key;
      assert nk == (key.0, v0[1..]);
      assert Resolve(reg, key, seen) == Resolve(reg, nk, seen + {v0});
      forall i | 0 <= i < n - 1
        ensures Val(reg, nk, i) == Val(reg, key, i + 1)
      {
        assert Hop(reg, key, i + 1) == Hop(reg, nk, i);
      }
      forall i | 0 <= i < n - 1
        ensures IsAlias(Val(reg, nk, i)) && Val(reg, nk, i) !in seen + {v0}
      {
        assert Val(reg, nk, i) == Val(reg, key, i + 1);
      }
      forall i, j | 0 <= i < j < n - 1
        ensures Val(reg, nk, i) != Val(reg, nk, j)
      {
        assert Val(reg, nk, i) == Val(reg, key, i + 1);
        assert Val(reg, nk, j) == Val(reg, key, j + 1);
      }
      ResolveWalk(reg, nk, seen + {v0}, n - 1);
      assert Hop(reg, key, n) == Hop(reg, nk, n - 1);
      assert {v0} + Visited(reg, nk, n - 1) == Visited(reg, key, n) by {
        forall x | x in Visited(reg, key, n) ensures x in {v0} + Visited(reg, nk, n - 1) {
          var i :| 0 <= i < n && x == Val(reg, key, i);
          if i > 0 {
            assert Val(reg, nk, i - 1) == Val(reg, key, i);
          }
        }
        forall x | x in Visited(reg, nk, n - 1) ensures x in Visited(reg, key, n) {
          var i :| 0 <= i < n - 1 && x == Val(reg, nk, i);
          assert Val(reg, nk, i) == Val(reg, key, i + 1);
        }
      }
      assert (seen + {v0}) + Visited(reg, nk, n - 1) == seen + Visited(reg, key, n);
      assert Resolve(reg, nk, seen + {v0}) == Resolve(reg, Hop(reg, nk, n - 1), (seen + {v0}) + Visited(reg, nk, n - 1));
    }
  }

  /** An alias chain of distinct values ending in a non-alias resolves to
      that first non-alias value. */
  lemma ResolveChainEnds(reg: Registry, key: Pair, n: nat)
    requires forall i :: 0 <= i < n ==> IsAlias(Val(reg, key, i))
    requires forall i, j :: 0 <= i < j < n ==> Val(reg, key, i) != Val(reg, key, j)
    requires !IsAlias(Val(reg, key, n))
    ensures Resolve(reg, key, {}) == Val(reg, key, n)
  {
    ResolveWalk(reg, key, {}, n);
  }

  /** An alias chain that comes back to a value it has already followed
      resolves to nil. */
  lemma ResolveChainCycles(reg: Registry, key: Pair, n: nat, j: nat)
    requires forall i :: 0 <= i < n ==> IsAlias(Val(reg, key, i))
    requires forall i, k :: 0 <= i < k < n ==> Val(reg, key, i) != Val(reg, key, k)
    requires j < n && Val(reg, key, n) == Val(reg, key, j)
    ensures Resolve(reg, key, {}) == Nil
  {
    ResolveWalk(reg, key, {}, n);
    assert Val(reg, key, n) in Visited(reg, key, n);
  }

  /** A key whose value is an alias of itself reads as nil. */
  lemma SelfAliasIsNil(reg: Registry, key: Pair)
    requires key in reg && reg[key] == "@" + key.1
    ensures Resolve(reg, key, {}) == Nil
  {
    assert Val(reg, key, 0) == "@" + key.1;
    assert ("@" + key.1)[1..] == key.1;
    assert Hop(reg, key, 1) == key;
    ResolveChainCycles(reg, key, 1, 0);
  }

  // ---------------------------------------------------------------------------
  // get(view)

  /** The value of the first argument whose key is `name`. */
  function FirstArg(args: seq<Pair>, name: string): (r: Option<string>)
    ensures r.None? <==> forall i :: 0 <= i < |args| ==> args[i].0 != name
    ensures r.Some? ==> exists i :: 0 <= i < |args| && args[i] == (name, r.value)
                                   && forall j :: 0 <= j < i ==> args[j].0 != name
  {
    if |args| == 0 then None
    else if args[0].0 == name then
      assert args[0] == (name, args[0].1);
      Some(args[0].1)
    else
      var r := FirstArg(args[1..], name);
      if r.Some? then
        var i :| 0 <= i < |args[1..]| && args[1..][i] == (name, r.value)
                 && forall j :: 0 <= j < i ==> args[1..][j].0 != name;
        assert args[i + 1] == (name, r.value);
        assert forall j :: 0 <= j < i + 1 ==> args[j].0 != name by {
          forall j | 0 <= j < i + 1 ensures args[j].0 != name {
            if j > 0 { assert args[j] == args[1..][j - 1]; }
          }
        }
        r
      else
        assert forall i :: 1 <= i < |args| ==> args[i] == args[1..][i - 1];
        r
  }

  /** `get(view)`: the first matching argument, else the environment, else
      (when the environment value is empty) the registry entry in the
      application's section. */
  function GetName(o: Options, name: string): (r: string)
    ensures (exists i :: 0 <= i < |o.args| && o.args[i].0 == name) ==>
      exists i :: 0 <= i < |o.args| && o.args[i] == (name, r)
                  && forall j :: 0 <= j < i ==> o.args[j].0 != name
    ensures (forall i :: 0 <= i < |o.args| ==> o.args[i].0 != name) ==>
      r == (if name in o.env && o.env[name] != Nil then o.env[name]
            else Resolve(o.reg, (o.section, name), {}))
  {
    match FirstArg(o.args, name)
    case Some(v) => v
    case None =>
      var e := EnvGet(o.env, name);
      if e == Nil then Resolve(o.reg, MakePair(o.section, name), {}) else e
  }

  /** Arguments come first: the first matching argument wins, whatever the
      environment and registry hold. */
  lemma ArgumentsWin(o: Options, name: string, i: nat)
    requires i < |o.args| && o.args[i].0 == name
    requires forall j :: 0 <= j < i ==> o.args[j].0 != name
    ensures GetName(o, name) == o.args[i].1
  {
    var r := FirstArg(o.args, name);
    var k :| 0 <= k < |o.args| && o.args[k] == (name, r.value)
             && forall j :: 0 <= j < k ==> o.args[j].0 != name;
    assert !(k < i) && !(i < k);
  }

  /** With no matching argument, a non-empty environment value is returned
      and the registry is never consulted. */
  lemma EnvironmentBeforeRegistry(o: Options, name: string, reg': Registry)
    requires forall i :: 0 <= i < |o.args| ==> o.args[i].0 != name
    requires EnvGet(o.env, name) != Nil
    ensures GetName(o, name) == EnvGet(o.env, name)
    ensures GetName(o.(reg := reg'), name) == GetName(o, name)
  {
  }

  /** With no matching argument and an empty environment value, the result is
      the registry's resolved value for the key in the application section. */
  lemma RegistryLast(o: Options, name: string)
    requires forall i :: 0 <= i < |o.args| ==> o.args[i].0 != name
    requires EnvGet(o.env, name) == Nil
    ensures GetName(o, name) == Resolve(o.reg, (o.section, name), {})
  {
  }

  // ---------------------------------------------------------------------------
  // cast, convert(key, bool), get(pair, span)

  /** The two key types the templates accept. */
  datatype Key = Name(name: string) | Entry(pair: Pair)

  /** `env::opt::get(key)` for either key type. */
  function Get(o: Options, key: Key): (v: string)
  {
    match key
    case Name(n) => GetName(o, n)
    case Entry(p) => Resolve(o.reg, p, {})
  }

  /** `cast(key, value, cast)`: the default when the lookup is empty,
      otherwise the conversion of the looked-up text. */
  function Cast<T>(o: Options, key: Key, value: T, cast: string -> T): (r: T)
    ensures Get(o, key) == Nil ==> r == value
    ensures Get(o, key) != Nil ==> r == cast(Get(o, key))
  {
    var u := Get(o, key);
    if u == Nil then value else cast(u)
  }

  /** The words whose lower-cased prefix makes a flag false. */
  const FalseWords: seq<string> := ["0", "no", "off", "false", "disable"]

  function LowerChar(c: char): (l: char)
  {
    if 'A' <= c <= 'Z' then (c as int + 32) as char else c
  }

  /** `fmt::to_lower` on ASCII letters. */
  function Lower(s: string): (r: string)
    ensures |r| == |s|
    ensures forall i :: 0 <= i < |s| ==> r[i] == LowerChar(s[i])
  {
    seq(|s|, i requires 0 <= i < |s| => LowerChar(s[i]))
  }

  /** Whether some word of `words` is a prefix of `s` (`starts_with`). */
  predicate AnyPrefix(words: seq<string>, s: string)
  {
    |words| > 0 && (words[0] <= s || AnyPrefix(words[1..], s))
  }

  /** The text of a flag read as a boolean: false exactly when its
      lower-cased form starts with one of the false words. */
  function ParseFlag(u: string): (b: bool)
    ensures !b <==> exists i :: 0 <= i < |FalseWords| && FalseWords[i] <= Lower(u)
  {
    AnyPrefixExists(FalseWords, Lower(u));
    !AnyPrefix(FalseWords, Lower(u))
  }

  lemma {:induction false} AnyPrefixExists(words: seq<string>, s: string)
    ensures AnyPrefix(words, s) <==> exists i :: 0 <= i < |words| && words[i] <= s
  {
    if |words| > 0 {
      AnyPrefixExists(words[1..], s);
      if AnyPrefix(words[1..], s) {
        var i :| 0 <= i < |words[1..]| && words[1..][i] <= s;
        assert words[i + 1] <= s;
      }
      if exists i :: 0 <= i < |words| && words[i] <= s {
        var i :| 0 <= i < |words| && words[i] <= s;
        if i > 0 { assert words[1..][i - 1] <= s; }
      }
    }
  }

  /** `convert(key, value)` for a boolean: the default when the lookup is
      empty, otherwise the flag reading of the looked-up text. */
  function GetBool(o: Options, key: Key, value: bool): (r: bool)
    ensures Get(o, key) == Nil ==> r == value
    ensures Get(o, key) != Nil ==>
      (!r <==> exists i :: 0 <= i < |FalseWords| && FalseWords[i] <= Lower(Get(o, key)))
  {
    var u := Get(o, key);
    if u != Nil then ParseFlag(u) else value
  }

  /** The boolean lookup is the generic cast with the flag reading. */
  lemma GetBoolIsCast(o: Options, key: Key, value: bool)
    ensures GetBool(o, key, value) == Cast(o, key, value, ParseFlag)
  {
  }

  /** Reading a flag ignores letter case. */
  lemma ParseFlagIgnoresCase(u: string, v: string)
    requires Lower(u) == Lower(v)
    ensures ParseFlag(u) == ParseFlag(v)
  {
  }

  /** Sample readings: upper-case false words and any text merely starting
      with one ("none", "offline") read as false; other text reads as true. */
  lemma ParseFlagSamples()
    ensures !ParseFlag("OFF") && !ParseFlag("Disabled") && !ParseFlag("none") && !ParseFlag("0x1")
    ensures ParseFlag("enable") && ParseFlag("1") && ParseFlag("yes")
  {
    assert Lower("OFF") == "off";
    assert Lower("Disabled") == "disabled";
    assert Lower("none") == "none";
    assert Lower("0x1") == "0x1";
    assert Lower("enable") == "enable";
    assert Lower("1") == "1";
    assert Lower("yes") == "yes";
    assert FalseWords[2] <= "off";
    assert FalseWords[4] <= "disabled";
    assert FalseWords[1] <= "none";
    assert FalseWords[0] <= "0x1";
    forall i | 0 <= i < |FalseWords|
      ensures !(FalseWords[i] <= "enable") && !(FalseWords[i] <= "1") && !(FalseWords[i] <= "yes")
    {
      var w := FalseWords[i];
      assert w[0] in {'0', 'n', 'o', 'f', 'd'};
      FirstCharDiffers(w, "enable");
      FirstCharDiffers(w, "1");
      FirstCharDiffers(w, "yes");
    }
  }

  lemma FirstCharDiffers(w: string, s: string)
    requires |w| > 0 && |s| > 0 && w[0] != s[0]
    ensures !(w <= s)
  {
  }

  /** `get(pair, span)`: a copy of the default when the lookup is empty,
      otherwise the looked-up text split into a list. */
  function GetList(o: Options, key: Pair, default: seq<string>, split: string -> seq<string>): (r: seq<string>)
    ensures Resolve(o.reg, key, {}) == Nil ==> r == default
    ensures Resolve(o.reg, key, {}) != Nil ==> r == split(Resolve(o.reg, key, {}))
  {
    var u := Resolve(o.reg, key, {});
    if u == Nil then default else split(u)
  }

  /** The list lookup is the generic cast with the splitter. */
  lemma GetListIsCast(o: Options, key: Pair, default: seq<string>, split: string -> seq<string>)
    ensures GetList(o, key, default, split) == Cast(o, Entry(key), default, split)
  {
  }

  // ---------------------------------------------------------------------------
  // put(pair, bool)

  const Enable: string := "enable"

  /** `put(pair, bool)`: true stores "enable", false removes the key; no
      other entry changes. */
  function PutBool(reg: Registry, key: Pair, value: bool): (r: Registry)
    ensures value ==> key in r && r[key] == Enable
    ensures !value ==> key !in r
    ensures forall k :: k != key ==> (k in r <==> k in reg)
    ensures forall k :: k != key && k in r ==> r[k] == reg[k]
  {
    if value then reg[key := Enable] else reg - {key}
  }

  /** Reading a flag back after storing it: true reads as true, and false
      reads as the caller's default because the key is gone. */
  lemma PutBoolRoundTrip(o: Options, key: Pair, value: bool, default: bool)
    ensures GetBool(o.(reg := PutBool(o.reg, key, value)), Entry(key), default)
         == (if value then true else default)
  {
    var reg := PutBool(o.reg, key, value);
    if value {
      assert Lookup(reg, key) == Enable;
      assert Lower(Enable) == "enable";
    } else {
      assert Lookup(reg, key) == Nil;
    }
  }

  /** `put(view, bool)`: the same, for the bare key in the application's section. */
  function PutBoolName(o: Options, name: string, value: bool): (r: Options)
    ensures r.args == o.args && r.env == o.env && r.section == o.section
    ensures r.reg == PutBool(o.reg, MakePair(o.section, name), value)
  {
    o.(reg := PutBool(o.reg, MakePair(o.section, name), value))
  }

  /** Storing a flag under a bare key is only seen back when neither an
      argument nor the environment overrides it. */
  lemma PutBoolNameRoundTrip(o: Options, name: string, value: bool, default: bool)
    requires forall i :: 0 <= i < |o.args| ==> o.args[i].0 != name
    requires EnvGet(o.env, name) == Nil
    ensures GetBool(PutBoolName(o, name, value), Name(name), default)
         == (if value then true else default)
  {
    PutBoolRoundTrip(o, MakePair(o.section, name), value, default);
  }
}

=== FILE: os.dfy ===
/**
 The operating-system interface as the stream layer sees it.

 Every system call is a request the model issues (a `Call`) and an abstract
 answer it is handed (a `Reply`): the model never decides whether the OS
 succeeds, it only says what it asks for and what it does with the answer.
 Platform constants are distinct abstract values, so a set of them stands
 for the bitwise OR of the corresponding platform flags.
 */
module Os {

  datatype Option<T> = None | Some(value: T)

  /** An OS resource handle: the sentinel `Invalid` or an owned descriptor number. */
  datatype Handle = Invalid | Fd(n: nat)

  /** The answer of the OS to one call: failure, or success carrying its value. */
  datatype Reply<T> = Failed | Done(value: T)

  /** Access-probe flags (F_OK, X_OK, R_OK, W_OK). */
  datatype AccessFlag = FOk | XOk | ROk | WOk

  /** Open flags (O_RDONLY, O_WRONLY, O_RDWR, O_TEXT, O_BINARY, O_APPEND,
      O_TRUNC, O_EXCL, O_CREAT). */
  datatype OpenFlag =
    | RdOnly | WrOnly | RdWr
    | TextMode | BinaryMode
    | AppendMode | Trunc | Excl | Creat

  /** Creation permission flags (S_IRUSR ... S_IXOTH). */
  datatype PermFlag =
    | IrUsr | IwUsr | IxUsr
    | IrGrp | IwGrp | IxGrp
    | IrOth | IwOth | IxOth

  /** One element of a C `char const*` array: a string or the null terminator. */
  datatype Arg = Str(s: string) | Null

  /** The system call an operation issues. */
  datatype Call =
    | OpenCall(path: string, flags: set<OpenFlag>, perm: nat)
    | ReadCall(fd: Handle, size: nat)
    | WriteCall(fd: Handle, size: nat)
    | CloseCall(fd: Handle)
    | PipeCall
    | RunCall(argv: seq<Arg>)
}
